=== FILE: README.md ===
# ChumsApp UI components: notes, group editor, task list

A Dafny model of the state logic in three React components of a
church-management web application:

- **GroupDetailsEdit** edits one group record. It has a field-update step, a
  photo step that closes the gallery, and a description update that needs a
  truthy id. `validate` gates the save. A confirmation gates the delete, and a
  successful delete sets a redirect to `/groups`. A derived `teamMode` flag hides
  parts of the form.
- **Notes** lists the notes attached to one entity and loads them only for a
  content id that is not missing. It posts a new note as a one-element batch,
  then clears the text box and reloads after the save succeeds. It removes a note
  locally on delete without waiting for the server. The input form is shown only
  to viewers who may edit.
- **TaskList** loads the open or the closed tasks according to the status filter.
  It shows the tasks assigned to the current person and the tasks that person
  requested as two sections, and a section with no tasks is left out. A compact
  layout drops the header row and the two label columns. A flag toggles the
  new-task form.

React state becomes immutable records. Each handler becomes a pure function
from the old state (and the event's data) to the new state. A network call is
never performed: a handler returns the `Gateway.Request` values it would issue
(`Get`, `Post` of a batch, `Delete`, each with its backend service), and a
successful response comes back as its own transition (`SaveSucceeded`,
`DeleteSucceeded`, `NotesLoaded`, `TasksLoaded`). A JavaScript property that
may be `undefined` or `null` is a `JsValues.Option`, whose `None` stands for
both, and `if (x)` on a string is `JsValues.Truthy`.

Some modelled behaviour is worth knowing:

- `teamMode` is `group?.tags?.indexOf("team") !== -1`, with `tags` taken to be
  an array of strings. A group without tags gives `undefined !== -1`, so it IS
  in team mode. This includes the empty group the editor starts with (`TeamModeBeforeLoad`).
- `validate` checks the category name even in team mode, where the form hides
  that field (`ValidateIgnoresTeamMode`).
- After a note save, the reload goes through `loadNotes`, so nothing is fetched
  for a missing content id (`Notes.SaveSucceeded`).
- The task list does not reload after the new-task form's save callback
  (`TaskList.NewTaskSaved`). The two task sections are not deduplicated
  (`TaskList.SectionsOverlap`).

Files: `js_values.dfy`, `seq_filter.dfy` (order-preserving filter and its
theory), `gateway.dfy`, `group_details_edit.dfy`, `notes.dfy`, `task_list.dfy`.

## Model

| member | source | states |
|---|---|---|
| JsValues.IndexOf | src/groups/components/GroupDetailsEdit.tsx:82 | `indexOf` gives -1 exactly when the element is absent, and otherwise the first position holding it |
| JsValues.OptIndexOf | src/groups/components/GroupDetailsEdit.tsx:82 | `tags?.indexOf(x)` is undefined exactly when the tag list is missing, and otherwise -1 exactly when `x` is not a tag |
| SeqFilter.Filter | src/components/Notes.tsx:37 | a filter keeps only elements that satisfy the predicate and never grows the list |
| SeqFilter.FilterMembership | src/components/Notes.tsx:37 | an element is kept iff it is in the list and satisfies the predicate |
| SeqFilter.FilterLength | src/components/Notes.tsx:37 | the number kept equals the number of elements that satisfy the predicate |
| SeqFilter.FilterAppend | src/components/Notes.tsx:37 | filtering distributes over concatenation, so the kept elements keep their relative order |
| SeqFilter.FilterIsSubsequence | src/components/Notes.tsx:37 | the kept elements form a subsequence of the original list |
| SeqFilter.FilterIdempotent | src/components/Notes.tsx:37 | filtering a second time with the same predicate changes nothing |
| SeqFilter.FilterUnique | src/components/Notes.tsx:37 | any subsequence that holds only matching elements and has as many as match is the filter itself |
| GroupDetailsEdit.SelectValue | src/groups/components/GroupDetailsEdit.tsx:105 | a yes/no select shows `"true"` iff the flag is present and true, and `"false"` otherwise, including for a missing flag |
| GroupDetailsEdit.HandleChange | src/groups/components/GroupDetailsEdit.tsx:28-38 | only the property the control names changes; the two flags become true iff the value is exactly `"true"`; an unknown name leaves the group equal to the original |
| GroupDetailsEdit.ChangeLastWriteWins | src/groups/components/GroupDetailsEdit.tsx:28-38 | of two writes to one control only the second survives; repeating a write changes nothing |
| GroupDetailsEdit.ChangesCommute | src/groups/components/GroupDetailsEdit.tsx:28-38 | writes to two different controls commute |
| GroupDetailsEdit.SelectRoundTrip | src/groups/components/GroupDetailsEdit.tsx:105-114 | re-choosing the value a yes/no select shows stores that flag (a missing flag becomes false) and leaves a present flag unchanged |
| GroupDetailsEdit.HandlePhotoSelected | src/groups/components/GroupDetailsEdit.tsx:40-45 | only the photo URL changes, to the chosen image, and the gallery's target is reset to null |
| GroupDetailsEdit.OpenGallery | src/groups/components/GroupDetailsEdit.tsx:131 | the select-image button gives the gallery a truthy target and changes nothing else |
| GroupDetailsEdit.CloseGallery | src/groups/components/GroupDetailsEdit.tsx:141 | closing the gallery clears its target and changes nothing else |
| GroupDetailsEdit.HandleMarkdownChange | src/groups/components/GroupDetailsEdit.tsx:47-53 | with a truthy id only the description changes, to the new value; otherwise the group is unchanged |
| GroupDetailsEdit.Validate | src/groups/components/GroupDetailsEdit.tsx:55-61 | at most two messages, the category message iff the category name is exactly `""`, the name message iff the name is exactly `""`, category first; absent properties give none |
| GroupDetailsEdit.ValidIff | src/groups/components/GroupDetailsEdit.tsx:55-61 | `validate` returns true iff neither the category name nor the name is the empty string |
| GroupDetailsEdit.ValidateIgnoresTeamMode | src/groups/components/GroupDetailsEdit.tsx:55-58 | the verdict does not depend on the tags: a team group with an empty category name is refused |
| GroupDetailsEdit.HandleSave | src/groups/components/GroupDetailsEdit.tsx:63-70 | the errors shown become `validate`'s; the post of the batch `[group]` to `/groups` is issued iff validation passed; the local group is untouched |
| GroupDetailsEdit.SaveSucceeded | src/groups/components/GroupDetailsEdit.tsx:65-68 | the server's group becomes the local group and is handed to the caller, the same value in both |
| GroupDetailsEdit.SaveRoundTrip | src/groups/components/GroupDetailsEdit.tsx:63-70 | a valid save posts the group and its response leaves the server's group both local and with the caller; an invalid save posts nothing and keeps the group with errors shown |
| GroupDetailsEdit.HandleKeyDown | src/groups/components/GroupDetailsEdit.tsx:22-27 | Enter behaves exactly as a save; every other key changes nothing and issues nothing |
| GroupDetailsEdit.HandleCancel | src/groups/components/GroupDetailsEdit.tsx:21 | cancel hands the current local group to the caller and changes nothing |
| GroupDetailsEdit.HandleDelete | src/groups/components/GroupDetailsEdit.tsx:72-76 | without confirmation nothing happens; with it, a group with an id gets a delete of `/groups/<id>` and one without id throws |
| GroupDetailsEdit.DeleteSucceeded | src/groups/components/GroupDetailsEdit.tsx:74 | the delete response sets the redirect to `/groups` and changes nothing else |
| GroupDetailsEdit.DeleteThenNavigate | src/groups/components/GroupDetailsEdit.tsx:72-84 | a delete request needs confirmation and an id; the editor navigates to `/groups` after the delete response, while the delete, save and photo handlers themselves keep it on the form, whatever image is chosen |
| GroupDetailsEdit.GroupPropChanged | src/groups/components/GroupDetailsEdit.tsx:78-80 | the caller's group replaces the local one only while mounted; nothing else changes |
| GroupDetailsEdit.TeamMode | src/groups/components/GroupDetailsEdit.tsx:82 | team mode is off iff a tag list exists and lacks `"team"`; a missing tag list means team mode |
| GroupDetailsEdit.TeamModeBeforeLoad | src/groups/components/GroupDetailsEdit.tsx:15-18 | the initial empty group is in team mode, so the first form hides the category and group-specific fields |
| GroupDetailsEdit.TeamModeByTags | src/groups/components/GroupDetailsEdit.tsx:82 | with a tag list, team mode is on iff the list holds `"team"`; adding `"team"` always turns it on |
| GroupDetailsEdit.Render | src/groups/components/GroupDetailsEdit.tsx:84-145 | navigation iff the redirect is non-empty; otherwise the form shows the errors, hides the category and group-specific fields iff in team mode, shows the current photo iff outside team mode with a truthy photo URL, and the gallery iff its target is truthy |
| Notes.NotesPathInjective | src/components/Notes.tsx:18 | two entities whose content types hold no slash never share a notes path |
| Notes.LoadNotes | src/components/Notes.tsx:15-20 | no request iff the content id is missing; otherwise exactly one GET of `/notes/<type>/<id>` from the membership service |
| Notes.NotesLoaded | src/components/Notes.tsx:19 | a load response replaces the whole note list and keeps the typed text |
| Notes.HandleTextChange | src/components/Notes.tsx:13-14 | the typed value becomes the note text and the list is unchanged |
| Notes.NewNote | src/components/Notes.tsx:22-26 | the new note carries the caller's content id and type and the typed text, and no id |
| Notes.HandleSave | src/components/Notes.tsx:21-27 | a post to `/notes` of a one-element batch whose note carries the props and the current text; the local state is unchanged |
| Notes.SaveSucceeded | src/components/Notes.tsx:27-30 | the text is cleared, the list kept, and the reload is issued (one GET unless the content id is missing) |
| Notes.SaveThenReload | src/components/Notes.tsx:21-30 | a save followed by its response posts the typed note, clears the box and fetches the notes again for a present content id |
| Notes.SaveAndDeleteOnFirstRender | src/components/Notes.tsx:10-11 | from the initial state (no notes, empty text) a delete keeps the state as it was, and a save posts a note with empty contents |
| Notes.HandleDelete | src/components/Notes.tsx:35-38 | a delete of `/notes/<id>` is issued and, unconditionally, exactly the notes whose id differs are kept, as a subsequence, with length the original minus the matches |
| Notes.CountComplement | src/components/Notes.tsx:37 | the notes that survive a delete number the original length minus the notes with that id |
| Notes.DeleteIdempotent | src/components/Notes.tsx:35-38 | deleting the same id twice leaves the list the first delete left, and the second delete still issues its request |
| Notes.DeleteKeepsOrder | src/components/Notes.tsx:37 | deleting from `a + b` keeps what deleting from `a` keeps followed by what deleting from `b` keeps |
| Notes.DeleteIsTheOnlySelection | src/components/Notes.tsx:37 | the kept list is the only order-preserving selection of the surviving notes |
| Notes.RenderNotes | src/components/Notes.tsx:40-77 | one entry per note in list order, keyed by its id; the input form is present iff the viewer may edit |
| TaskList.LoadData | src/tasks/components/TaskList.tsx:18-21 | a GET of `/tasks/closed` from the task service iff the status is `"Closed"`, and of `/tasks` for every other status |
| TaskList.StatusChanged | src/tasks/components/TaskList.tsx:23 | a mount or a status change issues exactly one load, the one `loadData` chooses for the status, and changes no state |
| TaskList.TasksLoaded | src/tasks/components/TaskList.tsx:19-20 | a load response replaces the whole task list; nothing is merged |
| TaskList.GetAll | src/tasks/components/TaskList.tsx:56 | the helper keeps exactly the tasks whose property equals the value, as a subsequence, as many as match |
| TaskList.Selected | src/tasks/components/TaskList.tsx:56 | a section's tasks are exactly those whose property equals the person id, in order, as many as match, and none for an empty list |
| TaskList.AssignedToMe | src/tasks/components/TaskList.tsx:55-56 | exactly the tasks assigned to the current person, in their original order; empty for an empty list |
| TaskList.RequestedByMe | src/tasks/components/TaskList.tsx:65-66 | exactly the tasks the current person created, in their original order; empty for an empty list |
| TaskList.SectionsOverlap | src/tasks/components/TaskList.tsx:55-73 | a task is in both sections iff it is both assigned to and created by the current person; there is no deduplication |
| TaskList.SectionSizes | src/tasks/components/TaskList.tsx:55-66 | each section holds as many tasks as match its property |
| TaskList.GetAllKeepsOrder | src/tasks/components/TaskList.tsx:55-66 | selecting from `a + b` gives the selection from `a` followed by that from `b`, so a section keeps the loaded order |
| TaskList.TaskRow | src/tasks/components/TaskList.tsx:25-40 | a compact row is the title column alone; a full row is title, associated-with and assigned-to; both fill the 12-unit grid |
| TaskList.HeaderRow | src/tasks/components/TaskList.tsx:42-53 | no header row iff compact; otherwise three heading cells, "Title", "Associated with" and "Assigned to", in the same widths as a full task row |
| TaskList.RenderSection | src/tasks/components/TaskList.tsx:57-62 | a section, heading included, is omitted iff its task list is empty; otherwise heading, header and one row per task in order |
| TaskList.InitialRendersNothing | src/tasks/components/TaskList.tsx:12-13 | with the initial state (form closed, no tasks) the list shows no form and neither section, for every person and every compact flag |
| TaskList.Render | src/tasks/components/TaskList.tsx:75-81 | the new-task form iff the add flag is set, with the compact flag passed on; each section is absent iff no task matches it, and a present section is the rendering of exactly that section's tasks |
| TaskList.AddClicked | src/tasks/components/TaskList.tsx:16 | the add button sets the add flag and keeps the tasks |
| TaskList.NewTaskCancelled | src/tasks/components/TaskList.tsx:76 | the form's cancel callback clears the add flag and keeps the tasks |
| TaskList.NewTaskSaved | src/tasks/components/TaskList.tsx:76 | the form's save callback clears the add flag, keeps the tasks and issues no reload |
| TaskList.AddThenCloseRestores | src/tasks/components/TaskList.tsx:76 | opening the form and closing it by either callback leaves the same tasks, a closed form and no request |

## Left out

- GroupDetailsEdit.TeamMode: `tags` is taken to be an array of strings, so `indexOf("team")` looks for a whole element; the declared type of `tags` lives in `@churchapps/apphelper`, which is not part of this model, and were `tags` a string, line 82 would test for a substring, so `"steam"` would give team mode where the model's `["steam"]` does not.
- Rendering: JSX, MUI layout, styles, icons and React hook scheduling. Only the chosen branch and the resulting state are modelled. The `Note` child component, `ServiceTimesEdit`, `MarkdownEditor`, `GalleryModal` and `NewTask` are external components. Their results enter the model as inputs: the chosen image, the new description, and the cancel and save callbacks.
- The gateway's HTTP calls and promise timing: requests are returned as values, and a response is a separate transition. A failed call has no transition, so it leaves the state unchanged, as the components do not handle failures.
- `window.confirm`: the user's answer is the `confirmed` input of `GroupDetailsEdit.HandleDelete`.
- `UserHelper.checkAccess`: its answer is the `canEdit` input of `Notes.RenderNotes`.
- `UniqueIdHelper.isMissing`: its code is not part of this model. It is the function parameter `isMissing`, with no assumption about it.
- `ArrayHelper.getAll`: its code is not part of this model. `TaskList.GetAll` takes it to be an order-preserving filter by strict equality of the named property. That is an assumption.
- `Locale.label` and all displayed text: the two validation messages are the distinct constants `CatNameMsg` and `GroupNameMsg`.
- `DateHelper` duration formatting in a task row: the row keeps the raw creation date.
- `useMountedState` and stale responses: only the mounted check on the caller's group is kept (`GroupDetailsEdit.GroupPropChanged`). A response that arrives after unmount is not modelled.
- `preventDefault` calls in the key and change handlers: they have no effect on component state.
- GroupDetailsEdit.HandleDelete: the `TypeError` that `group.id.toString()` throws for a missing id is an outcome with no requests and no state change. How the browser reports it is not modelled.
- GroupDetailsEdit.TeamMode: `group?.` guards against a null group. In the model the local group is never null, because the caller's group is always a record.
- The curried `handleDelete(noteId)` of the notes panel: when the `Note` child calls it is not modelled. `Notes.HandleDelete` is the call itself.
- GroupDetailsEdit.SaveSucceeded: the response to the batch post is assumed to be one group record. The component passes whatever the post returns to both the local state and the caller, and the gateway's response format is not part of this model.
- TaskList.Selected: `None` stands for both `null` and `undefined`, which strict equality tells apart. The two differ only when there is no current person: the source's person id is then `undefined` and does not select a task whose property is `null`, while the model selects every task whose property is absent in either way.

=== FILE: gateway.dfy ===
/** The remote data gateway as the components use it. A call is never performed
    here: each handler returns the requests it would issue, and a response comes
    back to the component as an explicit event. */
module Gateway {

  /** The backend service that owns notes and groups. */
  const MembershipApi: string := "MembershipApi"

  /** The backend service that owns tasks. */
  const DoingApi: string := "DoingApi"

  /** One call to the gateway; `T` is the type of record a batch post carries. */
  datatype Request<T> =
    | Get(path: string, service: string)
    | Post(path: string, batch: seq<T>, service: string)
    | Delete(path: string, service: string)
}

=== FILE: group_details_edit.dfy ===
/** The group details editor: the local copy of one group record, the
    validation that gates a save, the confirmation that gates a delete, and the
    derived team mode that decides which parts of the form are shown. */
module GroupDetailsEdit {
  import opened JsValues
  import opened Gateway

  /** A group record as the editor holds it; every property may be absent. */
  datatype Group = Group(
    id: Option<string>,
    categoryName: Option<string>,
    name: Option<string>,
    trackAttendance: Option<bool>,
    parentPickup: Option<bool>,
    about: Option<string>,
    photoUrl: Option<string>,
    tags: Option<seq<string>>)

  /** The properties of a group, used to say which one an update touches. */
  datatype Field = Id | CategoryName | Name | TrackAttendance | ParentPickup | About | PhotoUrl | Tags

  /** The two validation messages; their localized text is not modelled. */
  datatype Message = CatNameMsg | GroupNameMsg

  /** The editor's local state: the group being edited, the errors on display,
      the navigation target (empty for none) and the gallery's target field. */
  datatype EditorState = EditorState(
    group: Group,
    errors: seq<Message>,
    redirect: string,
    selectPhotoField: Option<string>)

  /** What a handler leaves behind: the new state, the gateway calls it issues,
      and the group handed to the caller's `updatedFunction`, if any. */
  datatype Effects = Effects(state: EditorState, requests: seq<Request<Group>>, notify: Option<Group>)

  /** A handler either completes or throws a `TypeError` before doing anything. */
  datatype Outcome = Completed(effects: Effects) | TypeError

  /** What the editor renders: a navigation away, or the form. */
  datatype View =
    | Navigate(to: string)
    | Form(errors: seq<Message>, categoryField: bool, groupFields: bool, photoShown: bool, gallery: bool)

  /** The empty group the editor starts from, before the caller's group arrives. */
  const EmptyGroup: Group := Group(None, None, None, None, None, None, None, None)

  /** The state on first render. */
  const InitialState: EditorState := EditorState(EmptyGroup, [], "", None)

  /** The path a successful delete navigates to. */
  const GroupsPath: string := "/groups"

  /** `a` and `b` agree on every property except possibly `f`. */
  predicate SameExcept(a: Group, b: Group, f: Field)
  {
    && (f == Id || a.id == b.id)
    && (f == CategoryName || a.categoryName == b.categoryName)
    && (f == Name || a.name == b.name)
    && (f == TrackAttendance || a.trackAttendance == b.trackAttendance)
    && (f == ParentPickup || a.parentPickup == b.parentPickup)
    && (f == About || a.about == b.about)
    && (f == PhotoUrl || a.photoUrl == b.photoUrl)
    && (f == Tags || a.tags == b.tags)
  }

  /** The property a form control's `name` attribute designates in `handleChange`. */
  function FieldNamed(name: string): Option<Field>
  {
    if name == "categoryName" then Some(CategoryName)
    else if name == "name" then Some(Name)
    else if name == "trackAttendance" then Some(TrackAttendance)
    else if name == "parentPickup" then Some(ParentPickup)
    else None
  }

  /** The value a yes/no select shows for a flag: `flag?.toString() || "false"`. */
  function SelectValue(flag: Option<bool>): (v: string)
    ensures v == "true" || v == "false"
    ensures v == "true" <==> flag == Some(true)
  {
    var shown: Option<string> := match flag
      case None => None
      case Some(b) => Some(if b then "true" else "false");
    if Truthy(shown) then shown.value else "false"
  }

  /** `handleChange`: write the changed control's value into a copy of the group.
      Only the one property the control names changes; an unknown name changes nothing. */
  function HandleChange(g: Group, name: string, value: string): (r: Group)
    ensures FieldNamed(name).None? ==> r == g
    ensures FieldNamed(name).Some? ==> SameExcept(g, r, FieldNamed(name).value)
    ensures name == "categoryName" ==> r.categoryName == Some(value)
    ensures name == "name" ==> r.name == Some(value)
    ensures name == "trackAttendance" ==> r.trackAttendance.Some? && (r.trackAttendance.value <==> value == "true")
    ensures name == "parentPickup" ==> r.parentPickup.Some? && (r.parentPickup.value <==> value == "true")
  {
    if name == "categoryName" then g.(categoryName := Some(value))
    else if name == "name" then g.(name := Some(value))
    else if name == "trackAttendance" then g.(trackAttendance := Some(value == "true"))
    else if name == "parentPickup" then g.(parentPickup := Some(value == "true"))
    else g
  }

  /** `handlePhotoSelected`: the gallery's choice becomes the photo and the gallery closes. */
  function HandlePhotoSelected(s: EditorState, image: string): (r: EditorState)
    ensures r.group.photoUrl == Some(image)
    ensures SameExcept(s.group, r.group, PhotoUrl)
    ensures r.selectPhotoField == None
    ensures r.errors == s.errors && r.redirect == s.redirect
  {
    s.(group := s.group.(photoUrl := Some(image)), selectPhotoField := None)
  }

  /** The "select image" button opens the gallery for the photo field. */
  function OpenGallery(s: EditorState): (r: EditorState)
    ensures Truthy(r.selectPhotoField)
    ensures r.group == s.group && r.errors == s.errors && r.redirect == s.redirect
  {
    s.(selectPhotoField := Some("photoUrl"))
  }

  /** Closing the gallery without a choice clears its target field only. */
  function CloseGallery(s: EditorState): (r: EditorState)
    ensures !Truthy(r.selectPhotoField)
    ensures r.group == s.group && r.errors == s.errors && r.redirect == s.redirect
  {
    s.(selectPhotoField := None)
  }

  /** `handleMarkdownChange`: the description changes only once the group has a
      truthy id; before that the edit is dropped. */
  function HandleMarkdownChange(g: Group, newValue: string): (r: Group)
    ensures Truthy(g.id) ==> r.about == Some(newValue) && SameExcept(g, r, About)
    ensures !Truthy(g.id) ==> r == g
  {
    if Truthy(g.id) then g.(about := Some(newValue)) else g
  }

  /** `validate`'s message list: a message for a category name that is exactly
      `""`, then one for a name that is exactly `""`. An absent property is not empty. */
  function Validate(g: Group): (errors: seq<Message>)
    ensures |errors| <= 2
    ensures CatNameMsg in errors <==> g.categoryName == Some("")
    ensures GroupNameMsg in errors <==> g.name == Some("")
    ensures |errors| == (if g.categoryName == Some("") then 1 else 0) + (if g.name == Some("") then 1 else 0)
    ensures |errors| == 2 ==> errors == [CatNameMsg, GroupNameMsg]
  {
    (if g.categoryName == Some("") then [CatNameMsg] else [])
    + (if g.name == Some("") then [GroupNameMsg] else [])
  }

  /** `validate`'s verdict: true exactly when no message was produced. */
  predicate IsValid(g: Group)
  {
    |Validate(g)| == 0
  }

  /** A group passes validation exactly when neither its category name nor its
      name is the empty string; absent properties always pass. */
  lemma ValidIff(g: Group)
    ensures IsValid(g) <==> g.categoryName != Some("") && g.name != Some("")
    ensures g.categoryName.None? && g.name.None? ==> IsValid(g)
  {
  }

  /** Validation looks at the category name whatever the tags say: a group in
      team mode, whose form hides the category field, is still refused for an
      empty category name. */
  lemma ValidateIgnoresTeamMode(g: Group, tags: Option<seq<string>>)
    ensures Validate(g.(tags := tags)) == Validate(g)
    ensures g.categoryName == Some("") ==> !IsValid(g.(tags := Some(["team"])))
  {
  }

  /** `handleSave`: always replace the displayed errors with `validate`'s, and
      post the one-element batch `[group]` exactly when there were none. The
      local group is not touched until the response arrives. */
  function HandleSave(s: EditorState): (r: Effects)
    ensures r.state.group == s.group && r.state.redirect == s.redirect
    ensures r.state.selectPhotoField == s.selectPhotoField
    ensures r.state.errors == Validate(s.group)
    ensures |r.requests| <= 1
    ensures |r.requests| == 1 <==> IsValid(s.group)
    ensures |r.requests| == 1 ==> r.requests[0] == Post("/groups", [s.group], MembershipApi)
    ensures r.notify.None?
  {
    var errors := Validate(s.group);
    var requests := if |errors| == 0 then [Post("/groups", [s.group], MembershipApi)] else [];
    Effects(s.(errors := errors), requests, None)
  }

  /** The save response: the server's group replaces the local one and is
      handed to the caller, the same value in both places. */
  function SaveSucceeded(s: EditorState, data: Group): (r: Effects)
    ensures r.state.group == data && r.notify == Some(data)
    ensures r.state.errors == s.errors && r.state.redirect == s.redirect
    ensures r.state.selectPhotoField == s.selectPhotoField
    ensures r.requests == []
  {
    Effects(s.(group := data), [], Some(data))
  }

  /** `handleKeyDown`: Enter saves; every other key does nothing. */
  function HandleKeyDown(s: EditorState, key: string): (r: Effects)
    ensures key == "Enter" ==> r == HandleSave(s)
    ensures key != "Enter" ==> r == Effects(s, [], None)
  {
    if key == "Enter" then HandleSave(s) else Effects(s, [], None)
  }

  /** `handleCancel`: hand the current local group back to the caller unchanged. */
  function HandleCancel(s: EditorState): (r: Effects)
    ensures r.state == s && r.requests == [] && r.notify == Some(s.group)
  {
    Effects(s, [], Some(s.group))
  }

  /** `handleDelete`: nothing happens unless the user confirms; after
      confirmation the group is deleted by id. Converting a missing id to a
      string throws, so a confirmed delete of a group without id issues nothing. */
  function HandleDelete(s: EditorState, confirmed: bool): (r: Outcome)
    ensures !confirmed ==> r == Completed(Effects(s, [], None))
    ensures confirmed && s.group.id.None? ==> r.TypeError?
    ensures confirmed && s.group.id.Some? ==>
              r == Completed(Effects(s, [Delete("/groups/" + s.group.id.value, MembershipApi)], None))
  {
    if !confirmed then Completed(Effects(s, [], None))
    else match s.group.id
      case None => TypeError
      case Some(id) => Completed(Effects(s, [Delete("/groups/" + id, MembershipApi)], None))
  }

  /** The delete response: navigate back to the group list. */
  function DeleteSucceeded(s: EditorState): (r: EditorState)
    ensures r.redirect == GroupsPath && r.redirect != ""
    ensures r.group == s.group && r.errors == s.errors && r.selectPhotoField == s.selectPhotoField
  {
    s.(redirect := GroupsPath)
  }

  /** The caller's group replaces the local copy while the editor is mounted. */
  function GroupPropChanged(s: EditorState, g: Group, mounted: bool): (r: EditorState)
    ensures mounted ==> r.group == g
    ensures !mounted ==> r == s
    ensures r.errors == s.errors && r.redirect == s.redirect && r.selectPhotoField == s.selectPhotoField
  {
    if mounted then s.(group := g) else s
  }

  /** `teamMode`: the position of "team" in the optional tag list differs from
      -1. A missing tag list yields `undefined`, which also differs from -1, so
      such a group is in team mode. */
  function TeamMode(g: Group): (team: bool)
    ensures !team <==> g.tags.Some? && "team" !in g.tags.value
    ensures g.tags.None? ==> team
  {
    OptIndexOf(g.tags, "team") != Some(-1)
  }

  /** The rendered editor: a navigation once a redirect is set, otherwise the
      form, whose category field and group-specific fields (attendance,
      pickup, description, photo and service times) are hidden in team mode.
      The current photo is shown among the group-specific fields when it is
      truthy; the gallery is rendered outside them, whenever it has a target. */
  function Render(s: EditorState): (v: View)
    ensures v.Navigate? <==> s.redirect != ""
    ensures v.Navigate? ==> v.to == s.redirect
    ensures v.Form? ==> v.errors == s.errors
    ensures v.Form? ==> (v.categoryField <==> !TeamMode(s.group)) && (v.groupFields <==> !TeamMode(s.group))
    ensures v.Form? ==> (v.photoShown <==> !TeamMode(s.group) && s.group.photoUrl.Some? && s.group.photoUrl.value != "")
    ensures v.Form? ==> (v.gallery <==> s.selectPhotoField.Some? && s.selectPhotoField.value != "")
  {
    if s.redirect != "" then Navigate(s.redirect)
    else
      var team := TeamMode(s.group);
      Form(s.errors, !team, !team, !team && Truthy(s.group.photoUrl), Truthy(s.selectPhotoField))
  }

  /** Writing a control twice keeps only the second value; writing the same
      value twice is the same as writing it once. */
  lemma ChangeLastWriteWins(g: Group, name: string, v1: string, v2: string)
    ensures HandleChange(HandleChange(g, name, v1), name, v2) == HandleChange(g, name, v2)
    ensures HandleChange(HandleChange(g, name, v1), name, v1) == HandleChange(g, name, v1)
  {
  }

  /** Changes to two different controls do not interfere: they commute. */
  lemma ChangesCommute(g: Group, n1: string, v1: string, n2: string, v2: string)
    requires n1 != n2
    ensures HandleChange(HandleChange(g, n1, v1), n2, v2) == HandleChange(HandleChange(g, n2, v2), n1, v1)
  {
  }

  /** Choosing in a yes/no select the value it already shows stores that flag,
      reading a missing flag as "no"; a present flag is left as it was. */
  lemma SelectRoundTrip(g: Group)
    ensures HandleChange(g, "trackAttendance", SelectValue(g.trackAttendance)).trackAttendance
            == Some(g.trackAttendance == Some(true))
    ensures HandleChange(g, "parentPickup", SelectValue(g.parentPickup)).parentPickup
            == Some(g.parentPickup == Some(true))
    ensures g.trackAttendance.Some? ==> HandleChange(g, "trackAttendance", SelectValue(g.trackAttendance)) == g
    ensures g.parentPickup.Some? ==> HandleChange(g, "parentPickup", SelectValue(g.parentPickup)) == g
  {
  }

  /** A save that passes validation posts the edited group; its response puts
      the server's group both in the editor and in the caller's hands. A save
      that fails validation posts nothing and leaves the group as it was. */
  lemma SaveRoundTrip(s: EditorState, data: Group)
    ensures IsValid(s.group) ==>
              HandleSave(s).requests == [Post("/groups", [s.group], MembershipApi)]
              && var after := SaveSucceeded(HandleSave(s).state, data);
                 after.state.group == data && after.notify == Some(data) && after.state.errors == []
    ensures !IsValid(s.group) ==>
              HandleSave(s).requests == [] && HandleSave(s).state.group == s.group
              && |HandleSave(s).state.errors| > 0
  {
  }

  /** The editor navigates away only after a confirmed delete of a group with an
      id has succeeded; every other handler keeps the editor on the form. */
  lemma DeleteThenNavigate(s: EditorState, confirmed: bool, image: string)
    requires s.redirect == ""
    ensures HandleDelete(s, confirmed).Completed? ==> Render(HandleDelete(s, confirmed).effects.state).Form?
    ensures HandleDelete(s, confirmed).Completed? && HandleDelete(s, confirmed).effects.requests != [] ==>
              confirmed && s.group.id.Some?
    ensures Render(DeleteSucceeded(s)) == Navigate("/groups")
    ensures Render(HandleSave(s).state).Form? && Render(HandlePhotoSelected(s, image)).Form?
  {
  }

  /** Before the caller's group arrives the editor holds an empty group, which
      has no tag list and is therefore shown in team mode: the category field
      and the group-specific fields are hidden. */
  lemma TeamModeBeforeLoad()
    ensures TeamMode(EmptyGroup)
    ensures Render(InitialState) == Form([], false, false, false, false)
  {
  }

  /** A group leaves team mode only through a tag list without "team"; adding
      "team" to any tag list puts it in team mode. */
  lemma TeamModeByTags(g: Group, tags: seq<string>)
    ensures !TeamMode(g.(tags := Some(tags))) <==> "team" !in tags
    ensures TeamMode(g.(tags := Some(tags + ["team"])))
  {
  }
}

=== FILE: js_values.dfy ===
/** Values as the components see them in the browser: a field that may be
    `undefined` or `null`, JavaScript truthiness of a string, and `Array.prototype.indexOf`. */
module JsValues {

  /** A property that may be absent (`undefined` or `null`) or hold a value. */
  datatype Option<+T> = None | Some(value: T)

  /** JavaScript truthiness of an optional string: `undefined`, `null` and `""` are falsy,
      every other string is truthy. */
  predicate Truthy(s: Option<string>)
  {
    s.Some? && s.value != ""
  }

  /** `xs.indexOf(x)`: the first position holding `x`, or -1 when there is none. */
  function IndexOf<T(==)>(xs: seq<T>, x: T): (r: int)
    ensures -1 <= r < |xs|
    ensures r == -1 <==> x !in xs
    ensures 0 <= r ==> xs[r] == x && forall j :: 0 <= j < r ==> xs[j] != x
    decreases |xs|
  {
    if |xs| == 0 then -1
    else if xs[0] == x then 0
    else
      var k := IndexOf(xs[1..], x);
      if k == -1 then -1 else k + 1
  }

  /** `xs?.indexOf(x)` on an optional array: `undefined` when the array is missing.
      The result is compared with `-1` by the caller, so `undefined` is kept apart
      from every number. */
  function OptIndexOf<T(==)>(xs: Option<seq<T>>, x: T): (r: Option<int>)
    ensures r.None? <==> xs.None?
    ensures xs.Some? ==> (r == Some(-1) <==> x !in xs.value)
  {
    match xs
    case None => None
    case Some(s) => Some(IndexOf(s, x))
  }
}

=== FILE: notes.dfy ===
/** The notes panel: the notes attached to one entity, a text box for a new
    note when the viewer may edit, optimistic removal on delete, and a reload
    after each successful save. */
module Notes {
  import opened JsValues
  import opened Gateway
  import opened SeqFilter

  /** A note; a note built for posting has no id yet. */
  datatype Note = Note(id: Option<string>, contentId: string, contentType: string, contents: string)

  /** The entity the panel belongs to, as given by the caller. */
  datatype NotesProps = NotesProps(contentId: string, contentType: string)

  /** The panel's local state: the notes on display and the text being typed. */
  datatype NotesState = NotesState(notes: seq<Note>, noteText: string)

  /** The new state together with the gateway calls a handler issues. */
  datatype NotesEffects = NotesEffects(state: NotesState, requests: seq<Request<Note>>)

  /** One rendered note, keyed by its id. */
  datatype NoteEntry = NoteEntry(note: Note, key: Option<string>)

  /** The rendered panel: the note entries, and whether the input box (with its
      "Add Note" save button and text area) surrounds them. */
  datatype NotesView = NotesView(entries: seq<NoteEntry>, inputForm: bool)

  /** The state on first render. */
  const InitialState: NotesState := NotesState([], "")

  /** The collection path for one entity's notes. */
  function NotesPath(contentType: string, contentId: string): string
  {
    "/notes/" + contentType + "/" + contentId
  }

  /** Two entities whose content types hold no slash never share a notes path,
      so a load fetches the notes of exactly one (type, id) pair. */
  lemma {:induction false} NotesPathInjective(t1: string, i1: string, t2: string, i2: string)
    requires '/' !in t1 && '/' !in t2
    requires NotesPath(t1, i1) == NotesPath(t2, i2)
    ensures t1 == t2 && i1 == i2
  {
    var a := t1 + "/" + i1;
    var b := t2 + "/" + i2;
    assert NotesPath(t1, i1) == "/notes/" + a;
    assert NotesPath(t2, i2) == "/notes/" + b;
    assert a == NotesPath(t1, i1)[7..] == b;
    // the first slash of `a` and of `b` ends the content type
    SlashAfterType(t1, i1);
    SlashAfterType(t2, i2);
    if |t1| < |t2| {
      assert false;
    } else if |t2| < |t1| {
      assert false;
    }
    assert t1 == a[..|t1|] == b[..|t2|] == t2;
    assert i1 == a[|t1| + 1..] == b[|t2| + 1..] == i2;
  }

  /** In `t + "/" + i` the content type comes first, then the slash. */
  lemma SlashAfterType(t: string, i: string)
    ensures (t + "/" + i)[|t|] == '/'
    ensures forall k :: 0 <= k < |t| ==> (t + "/" + i)[k] == t[k]
  {
  }

  /** `loadNotes`: no request while the content id is missing; otherwise one
      GET of the entity's notes from the membership service. `isMissing` stands
      for the unique-id helper's test, whose definition is not part of this model. */
  function LoadNotes(props: NotesProps, isMissing: string -> bool): (reqs: seq<Request<Note>>)
    ensures isMissing(props.contentId) <==> reqs == []
    ensures |reqs| <= 1
    ensures forall i :: 0 <= i < |reqs| ==>
              reqs[i].Get? && reqs[i].service == MembershipApi
              && reqs[i].path == "/notes/" + props.contentType + "/" + props.contentId
  {
    if !isMissing(props.contentId) then [Get(NotesPath(props.contentType, props.contentId), MembershipApi)]
    else []
  }

  /** A load response replaces the whole list; the typed text is kept. */
  function NotesLoaded(s: NotesState, data: seq<Note>): (r: NotesState)
    ensures r.notes == data && r.noteText == s.noteText
  {
    s.(notes := data)
  }

  /** `handleChange`: the text area's value becomes the note text. */
  function HandleTextChange(s: NotesState, value: string): (r: NotesState)
    ensures r.noteText == value && r.notes == s.notes
  {
    s.(noteText := value)
  }

  /** The note `handleSave` builds from the caller's entity and the typed text. */
  function NewNote(props: NotesProps, text: string): (n: Note)
    ensures n.id.None?
    ensures n.contentId == props.contentId && n.contentType == props.contentType && n.contents == text
  {
    Note(None, props.contentId, props.contentType, text)
  }

  /** `handleSave`: post a one-element batch holding the new note; nothing
      local changes until the response arrives. */
  function HandleSave(s: NotesState, props: NotesProps): (r: NotesEffects)
    ensures r.state == s
    ensures |r.requests| == 1 && r.requests[0].Post?
    ensures r.requests[0].path == "/notes" && r.requests[0].service == MembershipApi
    ensures |r.requests[0].batch| == 1
    ensures r.requests[0].batch[0].contentId == props.contentId
    ensures r.requests[0].batch[0].contentType == props.contentType
    ensures r.requests[0].batch[0].contents == s.noteText
  {
    NotesEffects(s, [Post("/notes", [NewNote(props, s.noteText)], MembershipApi)])
  }

  /** The save response: reload the entity's notes and clear the text box. */
  function SaveSucceeded(s: NotesState, props: NotesProps, isMissing: string -> bool): (r: NotesEffects)
    ensures r.state.noteText == "" && r.state.notes == s.notes
    ensures r.requests == LoadNotes(props, isMissing)
    ensures !isMissing(props.contentId) ==> |r.requests| == 1 && r.requests[0].Get?
  {
    NotesEffects(s.(noteText := ""), LoadNotes(props, isMissing))
  }

  /** Whether a note survives the deletion of `noteId`: `note.id !== noteId`.
      A note without id never equals a string, so it always survives. */
  predicate Survives(n: Note, noteId: string)
  {
    n.id != Some(noteId)
  }

  /** `handleDelete`: issue the delete and, without waiting for its outcome,
      keep exactly the notes whose id differs, in their original order. */
  function HandleDelete(s: NotesState, noteId: string): (r: NotesEffects)
    ensures r.requests == [Delete("/notes/" + noteId, MembershipApi)]
    ensures forall n :: n in r.state.notes <==> n in s.notes && n.id != Some(noteId)
    ensures |r.state.notes| == |s.notes| - CountWhere(s.notes, (n: Note) => n.id == Some(noteId))
    ensures IsSubsequence(r.state.notes, s.notes)
    ensures r.state.noteText == s.noteText
  {
    var keep := (n: Note) => Survives(n, noteId);
    FilterSpec(s.notes, keep);
    CountComplement(s.notes, noteId);
    NotesEffects(s.(notes := Filter(s.notes, keep)), [Delete("/notes/" + noteId, MembershipApi)])
  }

  /** Every note either survives a deletion or is one of those removed. */
  lemma {:induction false} CountComplement(notes: seq<Note>, noteId: string)
    ensures CountWhere(notes, (n: Note) => Survives(n, noteId))
            == |notes| - CountWhere(notes, (n: Note) => n.id == Some(noteId))
    decreases |notes|
  {
    if |notes| != 0 {
      CountComplement(notes[1..], noteId);
    }
  }

  /** Deleting the same id twice leaves what deleting it once left, and the
      second delete still issues its request. */
  lemma DeleteIdempotent(s: NotesState, noteId: string)
    ensures HandleDelete(HandleDelete(s, noteId).state, noteId).state == HandleDelete(s, noteId).state
    ensures HandleDelete(HandleDelete(s, noteId).state, noteId).requests == [Delete("/notes/" + noteId, MembershipApi)]
  {
    FilterIdempotent(s.notes, (n: Note) => Survives(n, noteId));
  }

  /** On first render the panel holds no notes and an empty text box: a delete
      then removes nothing, and saving straight away posts a note with empty
      contents, since the save handler does not check the text. */
  lemma SaveAndDeleteOnFirstRender(props: NotesProps, noteId: string)
    ensures HandleDelete(InitialState, noteId).state == InitialState
    ensures HandleSave(InitialState, props).requests[0].batch == [NewNote(props, "")]
    ensures HandleSave(InitialState, props).requests[0].batch[0].contents == ""
  {
  }

  /** Deletion acts on each part of a list on its own: the notes kept from
      `a + b` are those kept from `a` followed by those kept from `b`. */
  lemma DeleteKeepsOrder(a: seq<Note>, b: seq<Note>, text: string, noteId: string)
    ensures HandleDelete(NotesState(a + b, text), noteId).state.notes
            == HandleDelete(NotesState(a, text), noteId).state.notes
               + HandleDelete(NotesState(b, text), noteId).state.notes
  {
    FilterAppend(a, b, (n: Note) => Survives(n, noteId));
  }

  /** The kept list is the only order-preserving selection of the surviving
      notes: any subsequence of the notes that holds only survivors and is as
      long as the kept list is the kept list. */
  lemma DeleteIsTheOnlySelection(s: NotesState, noteId: string, r: seq<Note>)
    requires IsSubsequence(r, s.notes)
    requires forall i :: 0 <= i < |r| ==> r[i].id != Some(noteId)
    requires |r| == |HandleDelete(s, noteId).state.notes|
    ensures r == HandleDelete(s, noteId).state.notes
  {
    var keep := (n: Note) => Survives(n, noteId);
    FilterLength(s.notes, keep);
    FilterUnique(r, s.notes, keep);
  }

  /** Save then its response: the typed text ends up in the posted note, the box
      is cleared, and the notes are fetched again unless the content id is missing. */
  lemma SaveThenReload(s: NotesState, props: NotesProps, isMissing: string -> bool)
    ensures HandleSave(s, props).requests[0].batch == [NewNote(props, s.noteText)]
    ensures SaveSucceeded(HandleSave(s, props).state, props, isMissing).state == s.(noteText := "")
    ensures !isMissing(props.contentId) ==>
              SaveSucceeded(HandleSave(s, props).state, props, isMissing).requests
              == [Get(NotesPath(props.contentType, props.contentId), MembershipApi)]
  {
  }

  /** The rendered panel: one entry per note, in list order, keyed by the
      note's id; the input box is there exactly when the viewer may edit notes
      (`canEdit` is the permission check's answer). */
  method RenderNotes(notes: seq<Note>, canEdit: bool) returns (v: NotesView)
    ensures |v.entries| == |notes|
    ensures forall i :: 0 <= i < |notes| ==> v.entries[i].note == notes[i] && v.entries[i].key == notes[i].id
    ensures v.inputForm <==> canEdit
  {
    var noteArray: seq<NoteEntry> := [];
    var i := 0;
    while i < |notes|
      invariant 0 <= i <= |notes|
      invariant |noteArray| == i
      invariant forall j :: 0 <= j < i ==> noteArray[j] == NoteEntry(notes[j], notes[j].id)
    {
      noteArray := noteArray + [NoteEntry(notes[i], notes[i].id)];
      i := i + 1;
    }
    if !canEdit {
      v := NotesView(noteArray, false);
    } else {
      v := NotesView(noteArray, true);
    }
  }
}

=== FILE: seq_filter.dfy ===
/** Order-preserving selection from a list, the shape of `Array.prototype.filter`
    and of the `ArrayHelper.getAll` helper the task list calls. */
module SeqFilter {

  /** The elements of `s` that satisfy `p`, in their original order. */
  function Filter<T>(s: seq<T>, p: T -> bool): (r: seq<T>)
    ensures |r| <= |s|
    ensures forall i :: 0 <= i < |r| ==> p(r[i])
    decreases |s|
  {
    if |s| == 0 then []
    else if p(s[0]) then [s[0]] + Filter(s[1..], p)
    else Filter(s[1..], p)
  }

  /** How many elements of `s` satisfy `p`. */
  function CountWhere<T>(s: seq<T>, p: T -> bool): nat
    decreases |s|
  {
    if |s| == 0 then 0
    else (if p(s[0]) then 1 else 0) + CountWhere(s[1..], p)
  }

  /** `sub` is obtained from `s` by deleting elements, keeping the order of the rest. */
  predicate IsSubsequence<T(==)>(sub: seq<T>, s: seq<T>)
    decreases |s|
  {
    if |sub| == 0 then true
    else if |s| == 0 then false
    else (sub[0] == s[0] && IsSubsequence(sub[1..], s[1..])) || IsSubsequence(sub, s[1..])
  }

  /** An element is kept exactly when it is in the list and satisfies the predicate. */
  lemma {:induction false} FilterMembership<T>(s: seq<T>, p: T -> bool, x: T)
    ensures x in Filter(s, p) <==> x in s && p(x)
    decreases |s|
  {
    if |s| != 0 {
      FilterMembership(s[1..], p, x);
      assert s == [s[0]] + s[1..];
    }
  }

  /** The kept elements are exactly as many as the elements that satisfy the predicate. */
  lemma {:induction false} FilterLength<T>(s: seq<T>, p: T -> bool)
    ensures |Filter(s, p)| == CountWhere(s, p)
    decreases |s|
  {
    if |s| != 0 {
      FilterLength(s[1..], p);
    }
  }

  /** Filtering distributes over concatenation: the relative order of the kept
      elements is that of the original list. */
  lemma {:induction false} FilterAppend<T>(a: seq<T>, b: seq<T>, p: T -> bool)
    ensures Filter(a + b, p) == Filter(a, p) + Filter(b, p)
    decreases |a|
  {
    if |a| == 0 {
      assert a + b == b;
    } else {
      assert (a + b)[1..] == a[1..] + b;
      FilterAppend(a[1..], b, p);
    }
  }

  /** The kept elements form a subsequence of the original list. */
  lemma {:induction false} FilterIsSubsequence<T>(s: seq<T>, p: T -> bool)
    ensures IsSubsequence(Filter(s, p), s)
    decreases |s|
  {
    if |s| != 0 {
      FilterIsSubsequence(s[1..], p);
      var r := Filter(s, p);
      if p(s[0]) {
        assert r[0] == s[0] && r[1..] == Filter(s[1..], p);
      } else {
        SubsequenceOfTail(r, s);
      }
    }
  }

  /** A subsequence of the tail is a subsequence of the whole list. */
  lemma SubsequenceOfTail<T>(sub: seq<T>, s: seq<T>)
    requires |s| > 0 && IsSubsequence(sub, s[1..])
    ensures IsSubsequence(sub, s)
  {
  }

  /** Filtering twice with the same predicate changes nothing the second time. */
  lemma {:induction false} FilterIdempotent<T>(s: seq<T>, p: T -> bool)
    ensures Filter(Filter(s, p), p) == Filter(s, p)
    decreases |s|
  {
    if |s| != 0 {
      FilterIdempotent(s[1..], p);
      if p(s[0]) {
        var r := Filter(s, p);
        assert r[0] == s[0] && r[1..] == Filter(s[1..], p);
      }
    }
  }

  /** When every element satisfies the predicate the list is kept whole; when
      none does, nothing is kept. */
  lemma {:induction false} FilterAllOrNone<T>(s: seq<T>, p: T -> bool)
    ensures (forall i :: 0 <= i < |s| ==> p(s[i])) ==> Filter(s, p) == s
    ensures (forall i :: 0 <= i < |s| ==> !p(s[i])) ==> Filter(s, p) == []
    decreases |s|
  {
    if |s| != 0 {
      FilterAllOrNone(s[1..], p);
      assert forall i :: 1 <= i < |s| ==> s[1..][i - 1] == s[i];
    }
  }

  /** A subsequence of `s` made only of elements satisfying `p`, and as long as
      the number of such elements, is the filter of `s` by `p`: the filter is the
      only order-preserving selection of all matching elements. */
  lemma {:induction false} FilterUnique<T>(r: seq<T>, s: seq<T>, p: T -> bool)
    requires IsSubsequence(r, s)
    requires forall i :: 0 <= i < |r| ==> p(r[i])
    requires |r| == CountWhere(s, p)
    ensures r == Filter(s, p)
    decreases |s|
  {
    if |s| == 0 {
    } else if |r| == 0 {
      NoneCounted(s, p);
      FilterAllOrNone(s, p);
    } else {
      if r[0] == s[0] && IsSubsequence(r[1..], s[1..]) {
        assert p(s[0]);
        FilterUnique(r[1..], s[1..], p);
        assert r == [r[0]] + r[1..];
      } else {
        assert IsSubsequence(r, s[1..]);
        AllCounted(r, p);
        if p(s[0]) {
          // r would have to hold more matching elements than the tail has
          CountBound(r, s[1..], p);
          assert false;
        } else {
          FilterUnique(r, s[1..], p);
        }
      }
    }
  }

  /** When nothing is counted, no element satisfies the predicate. */
  lemma {:induction false} NoneCounted<T>(s: seq<T>, p: T -> bool)
    requires CountWhere(s, p) == 0
    ensures forall i :: 0 <= i < |s| ==> !p(s[i])
    decreases |s|
  {
    if |s| != 0 {
      NoneCounted(s[1..], p);
      assert forall i :: 1 <= i < |s| ==> s[1..][i - 1] == s[i];
    }
  }

  /** When every element satisfies the predicate, every element is counted. */
  lemma {:induction false} AllCounted<T>(s: seq<T>, p: T -> bool)
    requires forall i :: 0 <= i < |s| ==> p(s[i])
    ensures CountWhere(s, p) == |s|
    decreases |s|
  {
    if |s| != 0 {
      assert forall i :: 0 <= i < |s[1..]| ==> s[1..][i] == s[i + 1];
      AllCounted(s[1..], p);
    }
  }

  /** A subsequence has at most as many matching elements as its source list. */
  lemma {:induction false} CountBound<T>(sub: seq<T>, s: seq<T>, p: T -> bool)
    requires IsSubsequence(sub, s)
    ensures CountWhere(sub, p) <= CountWhere(s, p)
    decreases |s|
  {
    if |sub| != 0 {
      if sub[0] == s[0] && IsSubsequence(sub[1..], s[1..]) {
        CountBound(sub[1..], s[1..], p);
      } else {
        CountBound(sub, s[1..], p);
      }
    }
  }

  /** Everything a caller needs to know about a filter: it keeps exactly the
      matching elements, as many as there are, in their original order. */
  lemma FilterSpec<T>(s: seq<T>, p: T -> bool)
    ensures forall x :: x in Filter(s, p) <==> x in s && p(x)
    ensures |Filter(s, p)| == CountWhere(s, p)
    ensures IsSubsequence(Filter(s, p), s)
  {
    forall x ensures x in Filter(s, p) <==> x in s && p(x) {
      FilterMembership(s, p, x);
    }
    FilterLength(s, p);
    FilterIsSubsequence(s, p);
  }
}

=== FILE: task_list.dfy ===
/** The task list: the open or closed tasks, shown as two independently hidden
    sections, tasks assigned to the current person and tasks that person
    requested, with a compact layout and a toggle for the new-task form. */
module TaskList {
  import opened JsValues
  import opened Gateway
  import opened SeqFilter

  /** A task as the list receives it from the task service. */
  datatype Task = Task(
    id: Option<string>,
    taskNumber: int,
    title: string,
    dateCreated: string,
    createdById: Option<string>,
    createdByLabel: string,
    assignedToId: Option<string>,
    assignedToLabel: string,
    associatedWithLabel: string,
    status: string)

  /** The caller's options: an optional compact flag and the status filter. */
  datatype TaskListProps = TaskListProps(compact: Option<bool>, status: string)

  /** The list's local state: whether the new-task form is open, and the tasks. */
  datatype TaskListState = TaskListState(showAdd: bool, tasks: seq<Task>)

  /** The new state together with the gateway calls a transition issues. */
  datatype TaskEffects = TaskEffects(state: TaskListState, requests: seq<Request<Task>>)

  /** The person-id properties a task can be selected by. */
  datatype PersonField = AssignedToId | CreatedById

  /** The content of one grid cell. The creation date is kept raw; turning it
      into a relative duration is not part of this model. */
  datatype Cell =
    | TitleCell(taskId: Option<string>, title: string, taskNumber: int, dateCreated: string, createdByLabel: string)
    | AssociatedCell(associatedWith: string)
    | AssignedCell(assignedTo: string)
    | HeaderCell(text: string)

  /** A grid item: its width out of the grid's 12 units, and its content. */
  datatype Column = Column(width: nat, cell: Cell)

  /** The two section headings. */
  datatype Heading = AssignedToMeHeading | RequestedByMeHeading

  /** A rendered section: heading, optional header row, one row per task. */
  datatype Section = Section(heading: Heading, header: Option<seq<Column>>, rows: seq<seq<Column>>)

  /** The rendered list: the new-task form (with the compact flag passed on)
      when open, then the two sections, each absent when it would be empty. */
  datatype TaskListView = TaskListView(
    newTaskForm: Option<bool>,
    assignedToMe: Option<Section>,
    requestedByMe: Option<Section>)

  /** The state on first render. */
  const InitialState: TaskListState := TaskListState(false, [])

  /** Width of the grid every row is laid out in. */
  const GridWidth: nat := 12

  /** Truthiness of the optional `compact` flag. */
  predicate IsCompact(props: TaskListProps)
  {
    props.compact == Some(true)
  }

  /** `loadData`: the closed-tasks endpoint for status "Closed", the open-tasks
      endpoint for every other status, both on the task service. */
  function LoadData(status: string): (r: Request<Task>)
    ensures r.Get? && r.service == DoingApi
    ensures r.path == "/tasks/closed" <==> status == "Closed"
    ensures r.path == "/tasks" <==> status != "Closed"
  {
    if status == "Closed" then Get("/tasks/closed", DoingApi) else Get("/tasks", DoingApi)
  }

  /** Mounting the list, or changing its status filter, issues exactly one load. */
  function StatusChanged(s: TaskListState, status: string): (r: TaskEffects)
    ensures r.state == s && |r.requests| == 1
    ensures r.requests[0].Get? && (r.requests[0].path == "/tasks/closed" <==> status == "Closed")
    ensures r.requests == [LoadData(status)]
  {
    TaskEffects(s, [LoadData(status)])
  }

  /** A load response replaces the whole task list; nothing is merged. */
  function TasksLoaded(s: TaskListState, data: seq<Task>): (r: TaskListState)
    ensures r.tasks == data && r.showAdd == s.showAdd
  {
    s.(tasks := data)
  }

  /** The value of a person-id property of a task. */
  function FieldValue(t: Task, f: PersonField): Option<string>
  {
    match f
    case AssignedToId => t.assignedToId
    case CreatedById => t.createdById
  }

  /** `ArrayHelper.getAll(tasks, field, value)`, whose code is not part of this
      model, taken to keep the tasks whose property strictly equals `value`, in order. */
  function GetAll(tasks: seq<Task>, f: PersonField, value: Option<string>): (r: seq<Task>)
    ensures forall t :: t in r <==> t in tasks && FieldValue(t, f) == value
    ensures IsSubsequence(r, tasks)
    ensures |r| == CountWhere(tasks, (t: Task) => FieldValue(t, f) == value)
  {
    var matches := (t: Task) => FieldValue(t, f) == value;
    FilterSpec(tasks, matches);
    Filter(tasks, matches)
  }

  /** The tasks of one section: empty for an empty list, otherwise the tasks
      whose property equals the current person's id (`None` when no person). */
  function Selected(tasks: seq<Task>, f: PersonField, personId: Option<string>): (r: seq<Task>)
    ensures forall t :: t in r <==> t in tasks && FieldValue(t, f) == personId
    ensures IsSubsequence(r, tasks)
    ensures |r| == CountWhere(tasks, (t: Task) => FieldValue(t, f) == personId)
    ensures |tasks| == 0 ==> r == []
  {
    if |tasks| > 0 then GetAll(tasks, f, personId) else []
  }

  /** "Assigned to me": the tasks assigned to the current person, in order. */
  function AssignedToMe(tasks: seq<Task>, personId: Option<string>): (r: seq<Task>)
    ensures forall t :: t in r <==> t in tasks && t.assignedToId == personId
    ensures IsSubsequence(r, tasks)
    ensures |tasks| == 0 ==> r == []
  {
    Selected(tasks, AssignedToId, personId)
  }

  /** "Requested by me": the tasks the current person created, in order. */
  function RequestedByMe(tasks: seq<Task>, personId: Option<string>): (r: seq<Task>)
    ensures forall t :: t in r <==> t in tasks && t.createdById == personId
    ensures IsSubsequence(r, tasks)
    ensures |tasks| == 0 ==> r == []
  {
    Selected(tasks, CreatedById, personId)
  }

  /** The sections are not deduplicated against each other: a task lies in
      both exactly when it is assigned to and created by the current person. */
  lemma SectionsOverlap(tasks: seq<Task>, personId: Option<string>, t: Task)
    ensures t in AssignedToMe(tasks, personId) && t in RequestedByMe(tasks, personId)
            <==> t in tasks && t.assignedToId == personId && t.createdById == personId
  {
  }

  /** Each section holds exactly as many tasks as match its property. */
  lemma SectionSizes(tasks: seq<Task>, personId: Option<string>)
    ensures |AssignedToMe(tasks, personId)| == CountWhere(tasks, (t: Task) => FieldValue(t, AssignedToId) == personId)
    ensures |RequestedByMe(tasks, personId)| == CountWhere(tasks, (t: Task) => FieldValue(t, CreatedById) == personId)
  {
  }

  /** Selection acts on each part of the list on its own, so the relative order
      of the tasks in a section is their order in the loaded list. */
  lemma {:induction false} GetAllKeepsOrder(a: seq<Task>, b: seq<Task>, f: PersonField, value: Option<string>)
    ensures GetAll(a + b, f, value) == GetAll(a, f, value) + GetAll(b, f, value)
  {
    FilterAppend(a, b, (t: Task) => FieldValue(t, f) == value);
  }

  /** The sum of the widths of a row's columns. */
  function TotalWidth(row: seq<Column>): nat
    decreases |row|
  {
    if |row| == 0 then 0 else row[0].width + TotalWidth(row[1..])
  }

  /** The width of a three-column row is the sum of its three widths. */
  lemma WidthOfThree(c0: Column, c1: Column, c2: Column)
    ensures TotalWidth([c0, c1, c2]) == c0.width + c1.width + c2.width
  {
    assert [c2][1..] == [];
    assert TotalWidth([c2]) == c2.width;
    assert [c1, c2][1..] == [c2];
    assert TotalWidth([c1, c2]) == c1.width + c2.width;
    assert [c0, c1, c2][1..] == [c1, c2];
  }

  /** `getTask`: one column for the title in compact mode, otherwise the title
      followed by the associated-with and assigned-to labels. */
  function TaskRow(t: Task, compact: bool): (row: seq<Column>)
    ensures |row| == (if compact then 1 else 3)
    ensures row[0].cell == TitleCell(t.id, t.title, t.taskNumber, t.dateCreated, t.createdByLabel)
    ensures !compact ==> row[1].cell == AssociatedCell(t.associatedWithLabel) && row[2].cell == AssignedCell(t.assignedToLabel)
    ensures TotalWidth(row) == GridWidth
  {
    var title := TitleCell(t.id, t.title, t.taskNumber, t.dateCreated, t.createdByLabel);
    WidthOfThree(Column(6, title), Column(3, AssociatedCell(t.associatedWithLabel)), Column(3, AssignedCell(t.assignedToLabel)));
    assert [Column(12, title)][1..] == [];
    if compact then [Column(12, title)]
    else [Column(6, title), Column(3, AssociatedCell(t.associatedWithLabel)), Column(3, AssignedCell(t.assignedToLabel))]
  }

  /** `getHeader`: no header row in compact mode; otherwise three headings laid
      out in the same widths as a full task row. */
  function HeaderRow(compact: bool): (h: Option<seq<Column>>)
    ensures h.None? <==> compact
    ensures h.Some? ==> |h.value| == 3 && TotalWidth(h.value) == GridWidth
    ensures h.Some? ==> forall t: Task, i :: 0 <= i < 3 ==> h.value[i].width == TaskRow(t, false)[i].width
    ensures h.Some? ==> forall i :: 0 <= i < 3 ==> h.value[i].cell.HeaderCell?
    ensures h.Some? ==> h.value[0].cell.text == "Title" && h.value[1].cell.text == "Associated with"
                        && h.value[2].cell.text == "Assigned to"
  {
    WidthOfThree(Column(6, HeaderCell("Title")), Column(3, HeaderCell("Associated with")), Column(3, HeaderCell("Assigned to")));
    if compact then None
    else Some([Column(6, HeaderCell("Title")), Column(3, HeaderCell("Associated with")), Column(3, HeaderCell("Assigned to"))])
  }

  /** One section: omitted, heading included, exactly when its task list is
      empty; otherwise the heading, the header row and one row per task in order. */
  function RenderSection(heading: Heading, tasks: seq<Task>, compact: bool): (r: Option<Section>)
    ensures r.None? <==> |tasks| == 0
    ensures r.Some? ==> r.value.heading == heading && r.value.header == HeaderRow(compact)
    ensures r.Some? ==> |r.value.rows| == |tasks|
    ensures r.Some? ==> forall i :: 0 <= i < |tasks| ==> r.value.rows[i] == TaskRow(tasks[i], compact)
  {
    if |tasks| == 0 then None
    else Some(Section(heading, HeaderRow(compact), seq(|tasks|, i requires 0 <= i < |tasks| => TaskRow(tasks[i], compact))))
  }

  /** The whole list: the new-task form when open, then "Assigned to Me" and
      "Requested by Me", each present exactly when it has a task. */
  function Render(s: TaskListState, props: TaskListProps, personId: Option<string>): (v: TaskListView)
    ensures v.newTaskForm.Some? <==> s.showAdd
    ensures v.newTaskForm.Some? ==> (v.newTaskForm.value <==> IsCompact(props))
    ensures v.assignedToMe.None? <==> forall t :: t in s.tasks ==> t.assignedToId != personId
    ensures v.requestedByMe.None? <==> forall t :: t in s.tasks ==> t.createdById != personId
    ensures v.assignedToMe.Some? ==> v.assignedToMe.value.heading == AssignedToMeHeading
    ensures v.requestedByMe.Some? ==> v.requestedByMe.value.heading == RequestedByMeHeading
    ensures v.assignedToMe == RenderSection(AssignedToMeHeading, AssignedToMe(s.tasks, personId), IsCompact(props))
    ensures v.requestedByMe == RenderSection(RequestedByMeHeading, RequestedByMe(s.tasks, personId), IsCompact(props))
  {
    var compact := IsCompact(props);
    var mine := AssignedToMe(s.tasks, personId);
    var requested := RequestedByMe(s.tasks, personId);
    EmptyIffNoMember(mine);
    EmptyIffNoMember(requested);
    TaskListView(
      if s.showAdd then Some(compact) else None,
      RenderSection(AssignedToMeHeading, mine, compact),
      RenderSection(RequestedByMeHeading, requested, compact))
  }

  /** Before the first load answers there are no tasks, so the list shows
      neither section nor the new-task form, whoever is signed in. */
  lemma InitialRendersNothing(props: TaskListProps, personId: Option<string>)
    ensures Render(InitialState, props, personId) == TaskListView(None, None, None)
  {
  }

  /** A list is empty exactly when nothing is in it. */
  lemma EmptyIffNoMember(tasks: seq<Task>)
    ensures |tasks| == 0 <==> forall t :: t !in tasks
  {
    if |tasks| != 0 {
      assert tasks[0] in tasks;
    }
  }

  /** The add button opens the new-task form. */
  function AddClicked(s: TaskListState): (r: TaskListState)
    ensures r.showAdd && r.tasks == s.tasks
  {
    s.(showAdd := true)
  }

  /** The new-task form's cancel callback closes the form. */
  function NewTaskCancelled(s: TaskListState): (r: TaskListState)
    ensures !r.showAdd && r.tasks == s.tasks
  {
    s.(showAdd := false)
  }

  /** The new-task form's save callback closes the form and issues no reload:
      the list keeps the tasks it had. */
  function NewTaskSaved(s: TaskListState): (r: TaskEffects)
    ensures !r.state.showAdd && r.state.tasks == s.tasks
    ensures r.requests == []
  {
    TaskEffects(s.(showAdd := false), [])
  }

  /** Opening the form and closing it again, by either callback, returns the list
      to a closed form with the same tasks and without any request. */
  lemma AddThenCloseRestores(s: TaskListState)
    ensures NewTaskCancelled(AddClicked(s)) == s.(showAdd := false)
    ensures NewTaskSaved(AddClicked(s)) == TaskEffects(s.(showAdd := false), [])
  {
  }
}
